=== FILE: README.md ===
# AudioFilePlayer: the audio processor's hand-off and play-state core

AudioFilePlayer is a JUCE audio plugin. A background thread (the transport
source creator) opens audio files and publishes each finished,
reference-counted transport into a lock-free queue. Once per audio block,
the processor's `processBlock` does the following in order:

1. It clears the output channels that carry no input.
2. It drains that queue and keeps only the newest transport (coalescing).
3. It retires the transport that was active into a release pool, so that
   its destruction never happens on the audio thread.
4. It makes the newest transport active.
5. It brings the transport's play state in line with the desired-play flag
   `transportIsPlaying` (`refreshTransportState`). The model takes that
   flag as set from outside, since nothing in the source writes it.
6. It renders from the active transport.

The processor also accepts only certain bus layouts. It saves which file is
active and, on restore, asks the creator to load that file again.

The model has six modules:

- `Transport` (`transport.dfy`): a class for the loaded transport. Its file and length are fixed and its playing flag changes. The module also holds the play/stop decision as the function `Reconcile`, with its four-case table.
- `Handoff` (`handoff.dfy`): the queue seen from the audio thread (`Fifo.Pull`) and the append-only release pool (`ReleasePool.Add`). It also holds the per-block hand-off as the function `HandoffStep` over the queue, pool and active transport. The lemmas relate several blocks.
- `Layouts` (`layouts.dfy`): `isBusesLayoutSupported` as a function over channel sets and the build switches (MIDI effect, synth).
- `PluginState` (`plugin_state.dfy`): the gating in `getStateInformation` and `setStateInformation`, as functions over the parameter tree's properties.
- `AudioBuffer` (`audio_buffer.dfy`): a buffer as its channels of samples, and `ClearedChannels`, which describes a buffer with a range of channels silenced.
- `PluginProcessor` (`plugin_processor.dfy`): the processor as a class.
  - `ProcessBlock` clears the unused outputs, drains the queue (the loop in `PullLatest`), swaps and retires (`SwapInLatest`), then reconciles and renders (`ReconcileAndRender`). It is proved to leave the queue, pool and active transport exactly as `HandoffStep` says.
  - Without an active transport, the buffer is what `ClearedChannels` describes. With one, the transport is reconciled first and then renders: its decoded samples when it plays, silence when it does not.
  - Only the active transport's play state changes. `RefreshTransportState` is proved against `Reconcile`.

Pointers are modelled by identity: a transport is an object, and a null pointer is `null`. The queue's pointers may be null. The model treats a null exactly as the code's `ptr != nullptr` test does.

## Model

| member | source | states |
|---|---|---|
| `Transport.Reconcile` | Source/PluginProcessor.cpp:245-271 | Gives the four rows of the play-state table. Playing and not desired gives stop. Stopped and desired gives start only when the total length is positive. Agreement gives no call. The transport ends in the desired state exactly unless it should play but has length ≤ 0. It is started only when the length is positive. |
| `Transport.ReconcileSettles` | Source/PluginProcessor.cpp:250-271 | A second reconciliation right after the first asks nothing of the transport (the decision is idempotent). |
| `PluginProcessor.AudioFilePlayerProcessor.RefreshTransportState` | Source/PluginProcessor.cpp:231-272 | Needs an active transport. The call it makes (stop, start or none) is the one `Reconcile` picks for the actual flag, the desired flag and the length. Afterwards the playing flag is the result of that call. The active transport itself is not replaced. |
| `Handoff.Fifo.Pull` | Source/PluginProcessor.cpp:153 | Succeeds exactly when the queue is non-empty. On success it hands out the head and removes it. On failure it leaves both the queue and the caller's pointer as they were. |
| `Handoff.ReleasePool.Add` | Source/PluginProcessor.cpp:160 | The pool gains exactly the given pointer, null included, at the end. Existing entries are unchanged. |
| `Handoff.LastPulled` | Source/PluginProcessor.cpp:152-156 | Pulling until the queue refuses leaves the last queued pointer in `ptr`. When nothing was queued it leaves the pointer it started with. |
| `Handoff.HandoffStep` | Source/PluginProcessor.cpp:152-162 | The queue is empty afterwards. An empty queue leaves the pool and the active transport unchanged. When the last queued pointer is non-null, it becomes active and the pool gains exactly the previously active pointer (null on the first load). A null queued last changes neither. No queued transport other than the last, the one already active, or one already pooled becomes active or enters the pool. |
| `Handoff.HandoffStepIdempotent` | Source/PluginProcessor.cpp:152-162 | A second block with nothing newly queued changes nothing. |
| `Handoff.BurstAcrossBlocks` | Source/PluginProcessor.cpp:152-162 | One block and two blocks make the same transport active for the same burst. Draining the burst in one block retires only the old active transport. Splitting it across two blocks also retires the last transport of the first part. |
| `Handoff.RunClosedForm` | Source/PluginProcessor.cpp:152-162 | After a run of blocks, each fed a burst of queued pointers, the queue is empty. The winners of the blocks have been swapped in, in order (`SwappedIn`). A block's winner is the non-null last pointer of its queue. The active transport is the last winner, or the starting one when no block had a winner. The pool has gained, in order, exactly the transport each swap replaced: the starting active one, then every winner but the last. |
| `Handoff.NeverLastNeverRetired` | Source/PluginProcessor.cpp:152-162 | Over any run of blocks, a transport that is never the last of its burst never becomes active and never enters the pool. |
| `AudioBuffer.ClearedChannels` | Source/PluginProcessor.cpp:149-150 | Every channel keeps its length. Exactly the channels with index in [from, to), here [inputs, outputs), are silent. Every other channel is unchanged. Nothing changes when to ≤ from (outputs ≤ inputs). |
| `PluginProcessor.ClearUnusedOutputChannels` | Source/PluginProcessor.cpp:143-150 | Given at least as many channels as outputs, the loop leaves the buffer as `ClearedChannels` describes. |
| `AudioBuffer.ClearAllAbsorbs` | Source/PluginProcessor.cpp:149-150 | Silencing every channel after the unused outputs were cleared gives the same buffer as silencing every channel of the original. So a stopped transport's silent block does not depend on that clearing. |
| `PluginProcessor.AudioFilePlayerProcessor.PullLatest` | Source/PluginProcessor.cpp:152-156 | Pulling until the queue refuses leaves the queue empty and holds the last queued pointer, or null when nothing was queued (`LastPulled`). |
| `PluginProcessor.AudioFilePlayerProcessor.SwapInLatest` | Source/PluginProcessor.cpp:152-162 | The queue, pool and active transport afterwards are `HandoffStep` of those before. The desired flag is untouched. |
| `PluginProcessor.AudioFilePlayerProcessor.ReconcileAndRender` | Source/PluginProcessor.cpp:164-170 | The active transport's play state is first reconciled by `Reconcile`. The block then holds its decoded samples if it plays, and silence otherwise. It stays playing only if its stream did not end. |
| `PluginProcessor.AudioFilePlayerProcessor.ProcessBlock` | Source/PluginProcessor.cpp:137-171 | The queue, pool and active transport afterwards are `HandoffStep` of those before. The desired flag is untouched. With no active transport, the buffer is only cleared as `ClearedChannels` says. With one, the transport's play state is first reconciled by `Reconcile`. The buffer then holds the decoded samples if the transport plays, and silence otherwise. The transport stays playing only if its stream did not end in this block. Every other transport that was queued or active keeps its playing flag. |
| `Transport.TransportHandle.GetNextAudioBlock` | Source/PluginProcessor.cpp:168-169 | A playing transport fills every channel with the samples its reader yields for the block. A stopped one fills every channel with silence. Rendering never starts playback. It stops playback exactly when the stream ends in this block. |
| `Transport.TransportHandle.Start` | Source/PluginProcessor.cpp:269 | Afterwards the transport is playing. |
| `Transport.TransportHandle.Stop` | Source/PluginProcessor.cpp:259 | Afterwards the transport is stopped. |
| `Transport.TransportHandle.constructor` | Source/PluginProcessor.cpp:214-215 | A transport built for a requested file carries that file and its length, and starts stopped. |
| `PluginProcessor.AudioFilePlayerProcessor.constructor` | Source/PluginProcessor.h:80 | A new processor has an empty queue, an empty pool and no active transport, so the first swap retires null. Its desired play flag starts false. |
| `Layouts.IsBusesLayoutSupported` | Source/PluginProcessor.cpp:112-134 | A MIDI effect accepts every layout. Otherwise an accepted output has one or two channels. An audio effect accepts exactly mono→mono and stereo→stereo. A synth accepts exactly a mono or stereo output, whatever its input. |
| `Layouts.DefaultLayoutSupported` | Source/PluginProcessor.cpp:15-22 | For every build, the buses the processor declares for itself are accepted: none for a MIDI effect, only a stereo output for a synth, and stereo in and out otherwise. |
| `PluginState.GetStateInformation` | Source/PluginProcessor.cpp:185-197 | Something is written exactly when a transport is active. Without one, the tree is left alone. With one, "CurrentFile" holds the active file and every other property is kept. The tree written is the refreshed state. |
| `PluginState.SetStateInformation` | Source/PluginProcessor.cpp:199-219 | An unreadable tree changes nothing and requests nothing. A valid tree replaces the state. A load is requested exactly when the tree is valid and has a non-empty "CurrentFile" naming a file that exists. An empty value is the unset `var()` the code tests for at :207-208 and requests nothing. The request is for that file. |
| `PluginState.SaveThenRestore` | Source/PluginProcessor.cpp:185-219 | Restoring what a save with an active transport wrote brings back the saved tree. It requests the same file exactly when the file name is non-empty and the file still exists. |

## Left out

- The editor (`Source/PluginEditor.h`, `Source/PluginEditor.cpp`) is not part of this model. It is GUI code: waveform view, file browser, buttons and timer-driven repaint. It also holds the floating-point time/pixel conversions and the atomic compare-and-set of `sourceHasChanged` (Source/PluginEditor.cpp:359). The editor's start/stop button calls the processor's own `transportSource` member (Source/PluginEditor.cpp:322-331). No code in these files writes `transportIsPlaying`; it is only declared (Source/PluginProcessor.h:80) and read (Source/PluginProcessor.cpp:246). The model takes the desired flag as a processor field set from outside.
- The queue's producer side and the background transport creator (`requestTransportForURL`, the loader thread, `setBlockSize`/`setSampleRate` in `prepareToPlay`) are not part of this model. Their code is not among the files modelled. Restoring state ends in the load request, which is returned as a value.
- The release pool's own behaviour is not modelled beyond appending: its sweep, its reference counting, its deduplication and any filtering of null pointers. Its code is not among the files modelled, and its purpose is cross-thread reclamation. The audio thread's only interaction is `pool.add(activeSource)`, modelled as an append.
- Lock-free and atomic behaviour, thread start-up and `ScopedNoDenormals` are not modelled. Each method runs as one sequential step.
- Handoff.Fifo.Pull: models only the consumer view of the queue as a sequence. The fixed capacity and the full-queue drop on the producer side are not modelled.
- PluginProcessor.AudioFilePlayerProcessor.ProcessBlock: file reading is library I/O, so the samples the active transport's reader yields for a block (`decoded`) are a parameter. So is whether its stream ends in that block (`endOfStream`). The channel counts are parameters rather than queries of the bus layout. Samples are reals rather than 32-bit floats.
- Transport.TransportHandle.GetNextAudioBlock: follows the library transport's documented behaviour in three respects. It writes the whole block. It writes silence when stopped. It stops by itself at the end of a non-looping stream. Its resampling, gain, read-ahead buffering and looping are not modelled. The library keeps rendering for one more block after `stop()`, with a short fade-out; here the block of a `Stop` is already silent. The wait of up to about a second inside `stop()`, which here runs on the audio thread (Source/PluginProcessor.cpp:259), is not modelled either.
- Transport.TransportHandle: `start()`/`stop()` of the library transport are modelled only by their effect on the playing flag. Positions, sources and sample-rate handling are left out.
- PluginState.GetStateInformation: the helper `refreshCurrentFileInAPVTS` is not part of this model. It is taken to store the active file's text under "CurrentFile". Stream serialisation (`writeToStream`, and `readFromData` on restore) is library code. The saved data is therefore the property map itself, and a failed read is the `Invalid` tree. Property values are strings.
- PluginState.SetStateInformation: property values are strings, so the `url != var()` test is modelled as a test for the empty string, which JUCE treats as unset. `File::existsAsFile` is a parameter (a predicate on file names), because it queries the file system. The debug-only `jassert` before the existence test is not modelled, because release builds take the `if` that follows it.
- Plugin boilerplate returns constants and has no behaviour to prove: name, MIDI flags, tail length, programs, `hasEditor`/`createEditor`, `releaseResources`, the empty parameter layout and `createPluginFilter`.
- A transport is started only when `getTotalLength() > 0` (Source/PluginProcessor.cpp:265). A zero or negative length leaves it stopped.
- `pool.add(activeSource)` (Source/PluginProcessor.cpp:160) runs on every swap, null included. The pool's deduplication is not modelled.
- The pulled pointer is tested for null (Source/PluginProcessor.cpp:158), so queue entries may be null.

=== FILE: audio_buffer.dfy ===
/** An audio buffer seen as its channels, each a sequence of samples. */
module AudioBuffer {

  /** `n` samples of silence. */
  function Zeros(n: nat): (z: seq<real>)
    ensures |z| == n && forall j :: 0 <= j < n ==> z[j] == 0.0
  {
    seq(n, _ => 0.0)
  }

  predicate IsSilent(samples: seq<real>)
  {
    forall j :: 0 <= j < |samples| ==> samples[j] == 0.0
  }

  /** Two buffers with the same number of channels, each of the same length. */
  predicate SameShape(a: seq<seq<real>>, b: seq<seq<real>>)
  {
    |a| == |b| && forall k :: 0 <= k < |a| ==> |a[k]| == |b[k]|
  }

  /** The channels of a buffer after the channels in [from, to) have been cleared. */
  function ClearedChannels(channels: seq<seq<real>>, from: nat, to: nat): (r: seq<seq<real>>)
    // every channel keeps its length
    ensures SameShape(r, channels)
    // the cleared channels are silent
    ensures forall k :: 0 <= k < |r| && from <= k < to ==> IsSilent(r[k])
    // every other channel is left as it was
    ensures forall k :: 0 <= k < |r| && !(from <= k < to) ==> r[k] == channels[k]
    // an empty range clears nothing
    ensures to <= from ==> r == channels
  {
    seq(|channels|, k requires 0 <= k < |channels| =>
      if from <= k < to then Zeros(|channels[k]|) else channels[k])
  }

  /** Silencing every channel after silencing some of them is the same as
      silencing every channel at once. */
  lemma ClearAllAbsorbs(channels: seq<seq<real>>, from: nat, to: nat)
    ensures ClearedChannels(ClearedChannels(channels, from, to), 0, |channels|)
            == ClearedChannels(channels, 0, |channels|)
  {
  }
}

=== FILE: handoff.dfy ===
/** The hand-off between the background loader and the audio callback:
    the queue the loader publishes finished transports into, the release
    pool that keeps retired transports alive until they can be destroyed
    off the audio thread, and the per-block drain/coalesce/swap/retire step
    stated as a function of the queue, the pool and the active transport. */
module Handoff {
  import opened Transport

  /** The loader-to-audio queue, seen from the audio thread. A queued
      pointer may in principle be null; the audio callback checks for that. */
  class Fifo {
    var items: seq<TransportHandle?>

    constructor ()
      ensures items == []
    {
      items := [];
    }

    /** Pulls the oldest pointer into `ptr`: on success `ptr` is the head and
        the head is gone; on failure the queue and `ptr` are left as they were. */
    method Pull(ptr: TransportHandle?) returns (ok: bool, pulled: TransportHandle?)
      modifies this
      ensures ok <==> old(items) != []
      ensures ok ==> pulled == old(items)[0] && items == old(items)[1..]
      ensures !ok ==> pulled == ptr && items == old(items)
    {
      if items == [] {
        ok, pulled := false, ptr;
      } else {
        ok, pulled := true, items[0];
        items := items[1..];
      }
    }
  }

  /** The release pool, seen from the audio thread: it only ever gains
      entries, one per retirement, null included. */
  class ReleasePool {
    var entries: seq<TransportHandle?>

    constructor ()
      ensures entries == []
    {
      entries := [];
    }

    method Add(h: TransportHandle?)
      modifies this
      ensures entries == old(entries) + [h]
    {
      entries := entries + [h];
    }
  }

  /** The pointer left in `ptr` after pulling from `queue` until it is empty:
      the last queued pointer, or `ptr` itself when nothing was queued. */
  function LastPulled(queue: seq<TransportHandle?>, ptr: TransportHandle?): (last: TransportHandle?)
    ensures last == if queue == [] then ptr else queue[|queue| - 1]
  {
    if queue == [] then ptr else LastPulled(queue[1..], queue[0])
  }

  /** What the audio callback's hand-off touches: the queue, the pool and
      the active transport. */
  datatype BlockState = BlockState(queue: seq<TransportHandle?>, pool: seq<TransportHandle?>, active: TransportHandle?)

  /** One block's hand-off: drain the queue keeping only the last pointer;
      if it is non-null, retire the active transport into the pool and make
      the pulled one active. */
  function HandoffStep(s: BlockState): (t: BlockState)
    // the queue is empty afterwards
    ensures t.queue == []
    // with nothing queued, the pool and the active transport are unchanged
    ensures s.queue == [] ==> t == s
    // the most recently queued transport wins, and exactly the transport
    // that was active before is retired (null on the first load)
    ensures s.queue != [] && s.queue[|s.queue| - 1] != null ==>
              t.active == s.queue[|s.queue| - 1] && t.pool == s.pool + [s.active]
    // a null queued last changes nothing but the queue
    ensures s.queue != [] && s.queue[|s.queue| - 1] == null ==>
              t.pool == s.pool && t.active == s.active
    // coalescing: a queued transport other than the last one never becomes
    // active and never enters the pool
    ensures forall i :: 0 <= i < |s.queue| && s.queue[i] != s.queue[|s.queue| - 1] && s.queue[i] != s.active ==>
              t.active != s.queue[i] && (s.queue[i] !in s.pool ==> s.queue[i] !in t.pool)
  {
    var ptr := LastPulled(s.queue, null);
    if ptr != null then BlockState([], s.pool + [s.active], ptr)
    else BlockState([], s.pool, s.active)
  }

  /** A second block with nothing newly queued changes nothing. */
  lemma HandoffStepIdempotent(s: BlockState)
    ensures HandoffStep(HandoffStep(s)) == HandoffStep(s)
  {
  }

  /** A burst split across two blocks makes the same transport active as the
      burst drained in one block, but the split version retires the last
      transport of the first part as well. */
  lemma BurstAcrossBlocks(q1: seq<TransportHandle?>, q2: seq<TransportHandle?>, pool: seq<TransportHandle?>, active: TransportHandle?)
    requires q1 != [] && q1[|q1| - 1] != null
    requires q2 != [] && q2[|q2| - 1] != null
    ensures var one := HandoffStep(BlockState(q1 + q2, pool, active));
            var two := HandoffStep(HandoffStep(BlockState(q1, pool, active)).(queue := q2));
            one.active == two.active == q2[|q2| - 1] &&
            one.pool == pool + [active] &&
            two.pool == pool + [active, q1[|q1| - 1]]
  {
  }

  /** A run of blocks: before each block, one burst of transports has been
      queued behind whatever the queue already held. */
  function Run(s: BlockState, bursts: seq<seq<TransportHandle?>>): BlockState
    decreases |bursts|
  {
    if bursts == [] then s
    else Run(HandoffStep(s.(queue := s.queue + bursts[0])), bursts[1..])
  }

  /** Over any run of blocks starting from a drained queue, a transport that
      is never the last of its burst is never made active and never retired. */
  lemma {:induction false} NeverLastNeverRetired(s: BlockState, bursts: seq<seq<TransportHandle?>>, h: TransportHandle)
    requires s.queue == []
    requires h != s.active && h !in s.pool
    requires forall b: seq<TransportHandle?> :: b in bursts && b != [] ==> b[|b| - 1] != h as TransportHandle?
    ensures Run(s, bursts).active != h && h !in Run(s, bursts).pool
    decreases |bursts|
  {
    if bursts != [] {
      var s' := HandoffStep(s.(queue := s.queue + bursts[0]));
      assert bursts[0] in bursts;
      assert s.queue + bursts[0] == bursts[0];
      assert s'.active != h && h !in s'.pool;
      forall b | b in bursts[1..] && b != []
        ensures b[|b| - 1] != h as TransportHandle?
      {
        assert b in bursts;
      }
      NeverLastNeverRetired(s', bursts[1..], h);
    }
  }

  /** The transports that win their block in a run, in order: the non-null
      last pointer of each block's queue (the first block's queue starts
      with `pending`). */
  function Winners(pending: seq<TransportHandle?>, bursts: seq<seq<TransportHandle?>>): (w: seq<TransportHandle?>)
    ensures forall i :: 0 <= i < |w| ==> w[i] != null
    decreases |bursts|
  {
    if bursts == [] then []
    else
      var q := pending + bursts[0];
      (if q != [] && q[|q| - 1] != null then [q[|q| - 1]] else []) + Winners([], bursts[1..])
  }

  /** The first block of a run, in terms of the winner of its queue. */
  lemma FirstBlock(s: BlockState, burst: seq<TransportHandle?>)
    ensures var q := s.queue + burst;
            var s' := HandoffStep(s.(queue := q));
            s'.queue == [] &&
            (q != [] && q[|q| - 1] != null ==> s'.active == q[|q| - 1] && s'.pool == s.pool + [s.active]) &&
            (!(q != [] && q[|q| - 1] != null) ==> s'.active == s.active && s'.pool == s.pool)
  {
  }

  /** `t` is what `s` becomes when the transports `w` are swapped in, in
      order: the last of them is active, and the pool has gained the one
      active in `s` followed by every one of them but the last. */
  predicate SwappedIn(s: BlockState, w: seq<TransportHandle?>, t: BlockState)
  {
    (w == [] ==> t.active == s.active && t.pool == s.pool) &&
    (w != [] ==> t.active == w[|w| - 1] && t.pool == s.pool + [s.active] + w[..|w| - 1])
  }

  /** Swapping in the winners of one block and then those of later blocks
      is swapping in all of them. */
  lemma SwappedInConcat(s: BlockState, first: seq<TransportHandle?>, s': BlockState,
                        rest: seq<TransportHandle?>, t: BlockState)
    requires |first| <= 1
    requires SwappedIn(s, first, s')
    requires SwappedIn(s', rest, t)
    ensures SwappedIn(s, first + rest, t)
  {
  }

  /** After a run of blocks the queue is drained, and the winners of the
      blocks have been swapped in, in order. */
  lemma {:induction false} RunClosedForm(s: BlockState, bursts: seq<seq<TransportHandle?>>)
    ensures bursts != [] ==> Run(s, bursts).queue == []
    ensures SwappedIn(s, Winners(s.queue, bursts), Run(s, bursts))
    decreases |bursts|
  {
    if bursts != [] {
      var q := s.queue + bursts[0];
      var s' := HandoffStep(s.(queue := q));
      var first := if q != [] && q[|q| - 1] != null then [q[|q| - 1]] else [];
      FirstBlock(s, bursts[0]);
      RunClosedForm(s', bursts[1..]);
      SwappedInConcat(s, first, s', Winners([], bursts[1..]), Run(s', bursts[1..]));
    }
  }
}

=== FILE: layouts.dfy ===
/** The bus layouts the plugin accepts: a mono or stereo main output and,
    unless the plugin is built as a synth, a main input equal to it. */
module Layouts {

  /** The speaker positions a channel set is made of. */
  datatype ChannelType = Left | Right | Centre | LFE | LeftSurround | RightSurround | Discrete(index: nat)

  /** A channel set is identified by the channels it holds. */
  type ChannelSet = set<ChannelType>

  const Mono: ChannelSet := {Centre}
  const Stereo: ChannelSet := {Left, Right}

  datatype BusesLayout = BusesLayout(mainInput: ChannelSet, mainOutput: ChannelSet)

  /** The build-time switches that decide which checks are compiled in. */
  datatype PluginKind = PluginKind(isMidiEffect: bool, isSynth: bool)

  function IsBusesLayoutSupported(kind: PluginKind, layouts: BusesLayout): (ok: bool)
    // a MIDI effect has no audio buses to check
    ensures kind.isMidiEffect ==> ok
    // otherwise the main output carries one or two channels
    ensures ok && !kind.isMidiEffect ==> 1 <= |layouts.mainOutput| <= 2
    // an audio effect accepts exactly mono-to-mono and stereo-to-stereo
    ensures !kind.isMidiEffect && !kind.isSynth ==>
              (ok <==> layouts == BusesLayout(Mono, Mono) || layouts == BusesLayout(Stereo, Stereo))
    // a synth ignores its input bus
    ensures !kind.isMidiEffect && kind.isSynth ==>
              (ok <==> layouts.mainOutput == Mono || layouts.mainOutput == Stereo)
  {
    if kind.isMidiEffect then
      true
    else if layouts.mainOutput != Mono && layouts.mainOutput != Stereo then
      false
    else if !kind.isSynth && layouts.mainOutput != layouts.mainInput then
      false
    else
      true
  }

  /** The buses the processor declares for itself, as a function of the
      build: none for a MIDI effect, a stereo output for a synth, stereo in
      and out otherwise. */
  function DefaultLayout(kind: PluginKind): BusesLayout
  {
    if kind.isMidiEffect then BusesLayout({}, {})
    else BusesLayout(if kind.isSynth then {} else Stereo, Stereo)
  }

  /** The processor accepts the layout it declares for itself. */
  lemma DefaultLayoutSupported(kind: PluginKind)
    ensures IsBusesLayoutSupported(kind, DefaultLayout(kind))
  {
  }
}

=== FILE: plugin_processor.dfy ===
/** The audio processor's real-time side: once per block it silences the
    output channels that carry no input, takes the newest transport the
    loader has published, retires the one it replaces into the release
    pool, brings the transport's play state in line with the desired one,
    and renders from the active transport. */
module PluginProcessor {
  import opened Transport
  import opened Handoff
  import opened AudioBuffer

  /** Clears each output channel that has no matching input channel. */
  method ClearUnusedOutputChannels(buffer: array<seq<real>>, totalNumInputChannels: nat, totalNumOutputChannels: nat)
    requires totalNumOutputChannels <= buffer.Length
    modifies buffer
    ensures buffer[..] == ClearedChannels(old(buffer[..]), totalNumInputChannels, totalNumOutputChannels)
  {
    var i := totalNumInputChannels;
    while i < totalNumOutputChannels
      invariant totalNumInputChannels <= i
      invariant i <= totalNumOutputChannels || i == totalNumInputChannels
      invariant forall k :: 0 <= k < buffer.Length ==>
                  buffer[k] == if totalNumInputChannels <= k < i && k < totalNumOutputChannels
                               then Zeros(|old(buffer[k])|) else old(buffer[k])
    {
      buffer[i] := Zeros(|buffer[i]|);
      i := i + 1;
    }
  }

  class AudioFilePlayerProcessor {
    /** Transports published by the background loader. */
    const fifo: Fifo
    /** Transports retired by the audio thread, destroyed later elsewhere. */
    const pool: ReleasePool
    /** The transport rendered from; null until the first load arrives. */
    var activeSource: TransportHandle?
    /** Whether playback should run: the desired-play flag, taken as set
        from outside, since nothing in the processor or its editor writes it. */
    var transportIsPlaying: bool

    constructor ()
      ensures fresh(fifo) && fresh(pool)
      ensures fifo.items == [] && pool.entries == []
      ensures activeSource == null && !transportIsPlaying
    {
      fifo := new Fifo();
      pool := new ReleasePool();
      activeSource := null;
      transportIsPlaying := false;
    }

    /** The queue, the pool and the active transport, as the hand-off sees them. */
    ghost function State(): BlockState
      reads this, fifo, pool
    {
      BlockState(fifo.items, pool.entries, activeSource)
    }

    /** Starts or stops the active transport so that it follows the desired
        play state, and reports which call it made. */
    method RefreshTransportState() returns (action: TransportAction)
      requires activeSource != null
      modifies activeSource
      ensures action == Reconcile(old(activeSource.playing), transportIsPlaying, activeSource.totalLength)
      ensures activeSource.playing == PlayingAfter(action, old(activeSource.playing))
    {
      var transportSourceIsPlaying := activeSource.playing;
      var transportSourceShouldBePlaying := transportIsPlaying;

      if transportSourceIsPlaying == transportSourceShouldBePlaying {
        return NoAction;
      }

      if transportSourceIsPlaying && !transportSourceShouldBePlaying {
        activeSource.Stop();
        action := Stop;
      } else if !transportSourceIsPlaying && transportSourceShouldBePlaying {
        if activeSource.totalLength > 0 {
          activeSource.Start();
          action := Start;
        } else {
          action := NoAction;
        }
      } else {
        action := NoAction;
      }
    }

    /** Pulls from the queue until it is empty and gives back the last
        pointer pulled, null when there was none. */
    method PullLatest() returns (ptr: TransportHandle?)
      modifies fifo
      ensures fifo.items == []
      ensures ptr == LastPulled(old(fifo.items), null)
    {
      ptr := null;
      while true
        invariant LastPulled(fifo.items, ptr) == LastPulled(old(fifo.items), null)
        decreases |fifo.items|
      {
        var ok;
        ok, ptr := fifo.Pull(ptr);
        if !ok {
          break;
        }
      }
    }

    /** Drains the queue and, when the newest pointer pulled is non-null,
        retires the active transport into the pool and makes the newest one
        active. */
    method SwapInLatest()
      modifies this, fifo, pool
      ensures State() == HandoffStep(old(State()))
      ensures transportIsPlaying == old(transportIsPlaying)
    {
      var ptr := PullLatest();
      if ptr != null {
        pool.Add(activeSource);
        activeSource := ptr;
      }
    }

    /** Brings the active transport's play state in line with the desired
        one, then renders the block from it. */
    method ReconcileAndRender(buffer: array<seq<real>>, decoded: seq<seq<real>>, endOfStream: bool)
      requires activeSource != null
      requires SameShape(decoded, buffer[..])
      modifies activeSource, buffer
      ensures var reconciled := PlayingAfter(Reconcile(old(activeSource.playing), transportIsPlaying, activeSource.totalLength),
                                             old(activeSource.playing));
              buffer[..] == (if reconciled then decoded else ClearedChannels(old(buffer[..]), 0, buffer.Length)) &&
              activeSource.playing == (reconciled && !endOfStream)
    {
      var action := RefreshTransportState();
      activeSource.GetNextAudioBlock(buffer, decoded, endOfStream);
    }

    /** One audio block. `decoded` and `endOfStream` stand for what the active
        transport's reader yields for this block. */
    method ProcessBlock(buffer: array<seq<real>>, totalNumInputChannels: nat, totalNumOutputChannels: nat,
                        decoded: seq<seq<real>>, endOfStream: bool)
      requires totalNumOutputChannels <= buffer.Length
      requires SameShape(decoded, buffer[..])
      modifies this, fifo, pool, buffer, fifo.items, activeSource
      // drain, coalesce, swap and retire, as the hand-off function says
      ensures State() == HandoffStep(old(State()))
      ensures transportIsPlaying == old(transportIsPlaying)
      // without an active transport the block holds only what clearing left
      ensures activeSource == null ==>
                buffer[..] == ClearedChannels(old(buffer[..]), totalNumInputChannels, totalNumOutputChannels)
      // the active transport is reconciled first, then rendered from: it
      // writes its samples if it plays after reconciliation and silence if
      // not, and it stops by itself when its stream ends
      ensures var h := activeSource;
              h != null ==>
                var reconciled := PlayingAfter(Reconcile(old(h.playing), transportIsPlaying, h.totalLength), old(h.playing));
                buffer[..] == (if reconciled then decoded else ClearedChannels(old(buffer[..]), 0, buffer.Length)) &&
                h.playing == (reconciled && !endOfStream)
      // no other transport is touched
      ensures forall h | h in old(fifo.items) + [old(activeSource)] && h != null && h != activeSource ::
                h.playing == old(h.playing)
    {
      ClearUnusedOutputChannels(buffer, totalNumInputChannels, totalNumOutputChannels);
      SwapInLatest();
      if activeSource != null {
        ClearAllAbsorbs(old(buffer[..]), totalNumInputChannels, totalNumOutputChannels);
        ReconcileAndRender(buffer, decoded, endOfStream);
      }
    }
  }
}

=== FILE: plugin_state.dfy ===
/** Saving and restoring the plugin's state: the only thing saved is which
    file the active transport plays, and restoring it means asking the
    background loader to load that file again. */
module PluginState {

  datatype Option<T> = None | Some(value: T)

  /** The properties of the parameter tree's state, by name. */
  type Properties = map<string, string>

  const CurrentFileKey: string := "CurrentFile"

  /** A tree read back from saved data; reading fails on malformed data. */
  datatype ValueTree = Invalid | Tree(properties: Properties)

  /** The tree state after saving, and the tree written out, if any. */
  datatype Saved = Saved(state: Properties, written: Option<Properties>)

  /** Saving: with an active transport, record its file under "CurrentFile"
      and write the whole tree; without one, write nothing and leave the
      tree alone. */
  function GetStateInformation(activeFile: Option<string>, state: Properties): (r: Saved)
    ensures r.written.None? <==> activeFile.None?
    ensures activeFile.None? ==> r.state == state
    ensures activeFile.Some? ==>
              r.written == Some(r.state) &&
              CurrentFileKey in r.state && r.state[CurrentFileKey] == activeFile.value &&
              r.state.Keys == state.Keys + {CurrentFileKey} &&
              forall k :: k in state && k != CurrentFileKey ==> r.state[k] == state[k]
  {
    match activeFile
    case None => Saved(state, None)
    case Some(file) =>
      var refreshed := state[CurrentFileKey := file];
      Saved(refreshed, Some(refreshed))
  }

  /** The tree state after restoring, and the file the loader is asked to load, if any. */
  datatype Restored = Restored(state: Properties, request: Option<string>)

  /** Restoring: a tree that could not be read changes nothing; a valid one
      replaces the state, and a load is requested only when it names a
      non-empty "CurrentFile" that exists as a file. An empty value is the
      unset value and requests nothing. */
  function SetStateInformation(tree: ValueTree, state: Properties, existsAsFile: string -> bool): (r: Restored)
    ensures tree.Invalid? ==> r == Restored(state, None)
    ensures tree.Tree? ==> r.state == tree.properties
    ensures r.request.Some? <==>
              tree.Tree? && CurrentFileKey in tree.properties &&
              tree.properties[CurrentFileKey] != "" && existsAsFile(tree.properties[CurrentFileKey])
    ensures r.request.Some? ==> r.request.value == tree.properties[CurrentFileKey]
  {
    match tree
    case Invalid => Restored(state, None)
    case Tree(properties) =>
      if CurrentFileKey in properties && properties[CurrentFileKey] != "" then
        var file := properties[CurrentFileKey];
        if existsAsFile(file) then Restored(properties, Some(file)) else Restored(properties, None)
      else
        Restored(properties, None)
  }

  /** Restoring what was saved with an active transport brings back the
      saved tree and asks the loader for the same file, if it is named and
      still exists. */
  lemma SaveThenRestore(file: string, state: Properties, before: Properties, existsAsFile: string -> bool)
    ensures var saved := GetStateInformation(Some(file), state);
            var restored := SetStateInformation(Tree(saved.written.value), before, existsAsFile);
            restored.state == saved.state &&
            restored.request == (if file != "" && existsAsFile(file) then Some(file) else None)
  {
  }
}

=== FILE: transport.dfy ===
/** The playable source the background loader hands to the audio callback:
    a reference-counted transport around one opened audio file, and the
    rule the audio callback follows to keep its play state in line with
    a desired-play flag that the model takes as set from outside. */
module Transport {
  import opened AudioBuffer

  /** Which of the transport's calls the audio callback makes in one block. */
  datatype TransportAction = NoAction | Stop | Start

  /** The transport's playing flag once `action` has been carried out. */
  function PlayingAfter(action: TransportAction, playing: bool): bool
  {
    match action
    case NoAction => playing
    case Stop => false
    case Start => true
  }

  /** The play/stop decision taken once per block: compare the transport's
      actual state with the desired one, stop a transport that should not
      play, and start a stopped one only when it has something to play. */
  function Reconcile(isPlaying: bool, shouldBePlaying: bool, totalLength: int): (action: TransportAction)
    // the four rows of the play-state table
    ensures isPlaying == shouldBePlaying ==> action == NoAction
    ensures isPlaying && !shouldBePlaying ==> action == Stop
    ensures !isPlaying && shouldBePlaying && totalLength > 0 ==> action == Start
    ensures !isPlaying && shouldBePlaying && totalLength <= 0 ==> action == NoAction
    // afterwards the transport is in the desired state, unless it should
    // play and has nothing to play
    ensures (PlayingAfter(action, isPlaying) == shouldBePlaying)
              <==> !(shouldBePlaying && !isPlaying && totalLength <= 0)
    // the transport is only ever started when its total length is positive
    ensures action == Start ==> totalLength > 0
  {
    if isPlaying == shouldBePlaying then
      NoAction
    else if isPlaying && !shouldBePlaying then
      Stop
    else if !isPlaying && shouldBePlaying then
      (if totalLength > 0 then Start else NoAction)
    else
      NoAction
  }

  /** Reconciling a second time, with nothing changed in between, asks
      nothing more of the transport. */
  lemma ReconcileSettles(isPlaying: bool, shouldBePlaying: bool, totalLength: int)
    ensures Reconcile(PlayingAfter(Reconcile(isPlaying, shouldBePlaying, totalLength), isPlaying),
                      shouldBePlaying, totalLength) == NoAction
  {
  }

  /** One loaded audio file, ready to render. The file and its length are
      fixed once the loader has built it; only the playing flag changes. */
  class TransportHandle {
    const currentAudioFile: string
    const totalLength: int
    var playing: bool

    /** Built by the background loader; a new transport is stopped. */
    constructor (file: string, length: int)
      ensures currentAudioFile == file && totalLength == length && !playing
    {
      currentAudioFile := file;
      totalLength := length;
      playing := false;
    }

    method Start()
      modifies this
      ensures playing
    {
      playing := true;
    }

    method Stop()
      modifies this
      ensures !playing
    {
      playing := false;
    }

    /** Renders the next block into every channel of `buffer`. A playing
        transport writes the samples its reader yields for this block
        (`decoded`, one sequence per channel) and stops by itself when the
        stream ends in this block (`endOfStream`); a stopped transport
        writes silence. */
    method GetNextAudioBlock(buffer: array<seq<real>>, decoded: seq<seq<real>>, endOfStream: bool)
      requires SameShape(decoded, buffer[..])
      modifies this, buffer
      ensures buffer[..] == if old(playing) then decoded else ClearedChannels(old(buffer[..]), 0, buffer.Length)
      // rendering never starts playback; it stops only at the end of the stream
      ensures playing == (old(playing) && !endOfStream)
    {
      forall k | 0 <= k < buffer.Length {
        buffer[k] := if playing then decoded[k] else Zeros(|buffer[k]|);
      }
      if playing && endOfStream {
        playing := false;
      }
    }
  }
}
